=== FILE: README.md ===
# Scene and file persistence of the collaborative whiteboard, modelled in Dafny

This project models the backend-persistence layer of Excalidraw's collaboration app
(`excalidraw-app/data/supabase.ts`). The layer does the following:

- It saves the shared scene of a room as one encrypted record in the `excalidraw_scenes` table. A save reads the record, reconciles it with the local elements and writes the result back.
- It loads that record for clients that join the room.
- It keeps a per-socket cache of the last stored scene version, so that a save with nothing new to store is skipped.
- It uploads and downloads batches of file blobs in the `excalidraw-files` bucket and accounts for each file's success or failure separately.

The model is a functional state machine. Every operation is a pure function from the state and its inputs to an outcome and the next state:

- `SceneStore.State` holds the backend (client configured?, room id → record, path → blob) and the version cache (socket → version).
- Library calls that the file imports but does not define are fields of `Collab.Library` and stay uninterpreted. These are `getSceneVersion`, `encryptData`/`decryptData` with JSON serialisation, `restoreElements`, `getSyncableElements`, `reconcileElements` and `decompressData`. So every property holds for any implementation of them.
- Scene elements and the app state are opaque types.
- Decryption undoing encryption is never assumed. It is the explicit hypothesis `Collab.RoundTrip`, and only the lemmas that need it take it as a precondition.
- Some inputs come from outside the process: whether the client is configured, whether a select, write, upload or download fails, the random IV and the clock. These are state fields or parameters.

Files:
- `collab.dfy`: the shared types, the `Library` record, the portal and JavaScript truthiness.
- `version_cache.dfy`: the version cache and `isSavedToSupabase`.
- `scene_store.dfy`: the scene record, save and load.
- `file_store.dfy`: file upload and download.

Helpers without a row of their own: `SceneStore.DecryptScene` is `decryptElements` (supabase.ts lines 80-92) and `SceneStore.Candidate` is the select-and-reconcile branch of `saveToSupabase` (lines 205-239). Both are stated through `SceneStore.Save` and its lemmas. `FileStore.Ids`, `FileStore.IdsWhere` and `FileStore.FileDataIds` list the ids of a batch.

Points where the model fixes a behaviour the code leaves open:
- `saveToSupabase` keeps only `data` from its select and ignores the error. So a failed select is treated like "no record", and the save takes the insert branch. The model assumes `room_id` is the table's key, because the code selects and updates by it as a single row. Under that assumption, an insert for a room that already has a record is rejected. So a failed select on an existing room makes the save fail with nothing changed (`SceneStore.SaveAfterFailedSelect`). It does not overwrite the record.
- Truthiness follows JavaScript. A null or empty room id or room key means "not in a room". An empty `mimeType` falls back to the binary type, and a zero `created` falls back to the clock.
- `metadata.mimeType` is read without optional chaining. So a blob whose decompression yields no metadata throws, and the `catch` reports the file as errored.
- After a successful save, the cache holds the version of the elements the save returns. Those are decrypted from the document just written, not fetched again. It does not hold the version of the elements passed in. So a save of `X` makes `isSavedToSupabase(X)` true exactly when `X`'s version equals the version of the returned elements (`SceneStore.SaveThenIsSaved`). On a first save, with decryption undoing encryption, the returned elements are `syncable(restore(X))`. On an update they come from reconciling `X` with the stored scene. So a save that merged in a collaborator's elements leaves `X` unsaved.

## Model

| member | source | states |
|---|---|---|
| VersionCache.Get | excalidraw-app/data/supabase.ts:96-98 | a lookup is present exactly when the socket has an entry, and then gives that entry |
| VersionCache.Set | excalidraw-app/data/supabase.ts:99-104 | caching adds the socket's entry, which is the version of the given elements; every other socket's entry is unchanged |
| VersionCache.IsSaved | excalidraw-app/data/supabase.ts:107-119 | outside a room (no socket, room id or room key) the scene counts as saved; in a room it counts as saved exactly when the socket has a cached version equal to the version of the elements |
| VersionCache.SetThenIsSaved | excalidraw-app/data/supabase.ts:99-119 | after caching `stored` for a socket, the scene counts as saved for `stored` and for exactly the element sets with its version; portals on other sockets answer as before |
| SceneStore.Select | excalidraw-app/data/supabase.ts:199-203 | a single-row select returns the room's record exactly when it does not fail and the room has one; otherwise it reports an error |
| SceneStore.CreateDocument | excalidraw-app/data/supabase.ts:164-175 | the new record's version field is the version of the given elements and it carries the drawn IV; when decryption undoes encryption, it decrypts back to exactly the given elements and is consistent |
| SceneStore.Write | excalidraw-app/data/supabase.ts:210-252 | an insert or update succeeds exactly when the write does not fail and, for an insert, the room has no record yet; a successful insert, or an update of an existing record, replaces only that room's record; an update matching no row changes nothing |
| SceneStore.FinishSave | excalidraw-app/data/supabase.ts:255-261 | after the write, the save succeeds exactly when the written record decrypts; it returns the syncable restored plaintext and caches that set's version for the socket; on failure the cache is unchanged |
| SceneStore.Save | excalidraw-app/data/supabase.ts:177-262 | it does nothing exactly when the scene is already saved, which includes being outside a room; without a client it fails before touching anything; only the portal's room record and socket entry can change; a failure leaves the cache unchanged, and when it changed the backend, the room's record it wrote does not decrypt; a success returns the syncable plaintext of the room's written record, restored without deletion, and caches its version |
| SceneStore.SaveInsertsRecord | excalidraw-app/data/supabase.ts:207-219 | on the first save of a room, exactly one record is added, for that room; it holds the version of the local elements, their encryption under the room key and the drawn IV; with round-trip decryption the save returns the syncable restored local elements |
| SceneStore.SaveAfterFailedSelect | excalidraw-app/data/supabase.ts:199-219 | because the select error is ignored, a failed select on a room that has a record leads to the insert branch; the insert is rejected, and the save fails with the state unchanged |
| SceneStore.SaveUpdatesRecord | excalidraw-app/data/supabase.ts:220-261 | when the room has a decryptable record, the record written to the same room is built from syncable(reconcile(local, syncable(restore(decrypt(previous))))), its version is that set's version, and it carries the drawn IV; other rooms are unchanged; with round-trip decryption the save returns that set restored without deletion and filtered |
| SceneStore.SaveUndecryptablePrevious | excalidraw-app/data/supabase.ts:222-230 | when the room's record does not decrypt, the save fails before writing, with the state unchanged |
| SceneStore.SaveWriteFailure | excalidraw-app/data/supabase.ts:207-253 | whenever the insert or update fails, the backend and the cache are both unchanged and nothing is reported saved |
| SceneStore.SaveThenIsSaved | excalidraw-app/data/supabase.ts:255-261 | after a successful save, the scene counts as saved for the returned elements, and for any element set exactly when its version equals theirs |
| SceneStore.SaveKeepsRecordsConsistent | excalidraw-app/data/supabase.ts:164-175 | with round-trip decryption, a save under the room's key keeps every record decryptable with its version field equal to the version of its plaintext |
| SceneStore.Load | excalidraw-app/data/supabase.ts:264-301 | with no client, a failed select or no record, it returns null and leaves the cache unchanged; if the record does not decrypt, it fails; it loads exactly when the client is configured, the select succeeds and the record decrypts, and then it returns the syncable plaintext restored with invisible elements deleted, and caches that set's version only when a socket is given |
| SceneStore.SaveThenLoad | excalidraw-app/data/supabase.ts:255-300 | after a successful save, the room holds a consistent record; the save returned its plaintext restored without deletion, and a fault-free load returns it restored with invisible elements deleted |
| SceneStore.LoadThenIsSaved | excalidraw-app/data/supabase.ts:296-298 | a load given the portal's socket leaves the scene saved for the loaded elements, and for exactly the element sets with their version |
| FileStore.FilePathInjective | excalidraw-app/data/supabase.ts:139 | under one prefix, the path `prefix/id` determines the id |
| FileStore.UploadAll | excalidraw-app/data/supabase.ts:136-159 | every file whose upload succeeds has its id in the saved list, every file whose upload fails has it in the errored list, and the two lists together are as long as the batch |
| FileStore.UploadAllPartition | excalidraw-app/data/supabase.ts:133-161 | as multisets, the saved ids are the ids of the successful uploads and the errored ids those of the failed uploads, one entry per upload; together they are exactly the batch's ids |
| FileStore.UploadAllOrigin | excalidraw-app/data/supabase.ts:149-157 | every saved id comes from a file whose upload succeeded, and every errored id from one whose upload failed |
| FileStore.UploadAllKeys | excalidraw-app/data/supabase.ts:139-147 | after a batch, the bucket holds a path exactly when it held it before or a successful upload targeted it |
| FileStore.UploadAllKeepsOthers | excalidraw-app/data/supabase.ts:139-147 | a path that no successful upload targets keeps its blob |
| FileStore.UploadAllLastWins | excalidraw-app/data/supabase.ts:140-146 | because uploads use upsert, a path holds the buffer of the last file, in input order, successfully uploaded to it |
| FileStore.SaveFiles | excalidraw-app/data/supabase.ts:121-162 | it fails exactly when storage is absent; otherwise only the files bucket changes, and it becomes the bucket after the batch's uploads; each file is reported by its own upload's outcome, as multisets the saved ids are those of the successful uploads and the errored ids those of the failed ones, together the batch's ids, and their counts add up to the batch size |
| FileStore.SaveFilesDisjoint | excalidraw-app/data/supabase.ts:149-157 | with distinct ids in the batch, no id is reported both saved and errored |
| FileStore.SaveFilesThenDownload | excalidraw-app/data/supabase.ts:139-147 | after a fully successful batch with distinct ids, a fault-free download of each file's path returns that file's buffer |
| FileStore.Dedup | excalidraw-app/data/supabase.ts:317 | deduplicating the requested ids keeps exactly the same ids, with no repetitions |
| FileStore.Download | excalidraw-app/data/supabase.ts:320-327 | a download yields bytes exactly when it does not fail and the path holds a blob, and then it yields that blob |
| FileStore.MimeTypeOr | excalidraw-app/data/supabase.ts:342 | the resulting type is the stored type whenever that is present and non-empty, and the binary type otherwise |
| FileStore.CreatedOr | excalidraw-app/data/supabase.ts:345-346 | a present non-zero creation time is kept; an absent or zero one becomes the current time |
| FileStore.FetchFile | excalidraw-app/data/supabase.ts:318-351 | a file loads exactly when its download succeeds, decompression succeeds and metadata is present; a loaded file has the requested id, the stored MIME type or the binary default, the decompressed data, the stored creation time or the current time when it is absent or zero, and a last-retrieved time equal to its creation time |
| FileStore.FetchAll | excalidraw-app/data/supabase.ts:316-353 | for a repetition-free request, each loaded file is one the request asked for and equals its single fetch; each requested id that fetches is loaded; an id is errored exactly when it was requested and its fetch failed; loaded ids are distinct |
| FileStore.LoadFiles | excalidraw-app/data/supabase.ts:303-356 | without storage the results are empty; otherwise each requested id is in exactly one of the loaded files and the errored set, an id is errored exactly when it was requested and its own fetch fails, nothing unrequested appears, no id is loaded twice, and each loaded file is the result of fetching its id |
| FileStore.LoadedMimeType | excalidraw-app/data/supabase.ts:342 | a loaded file's MIME type is the stored one when it is present and non-empty, and the binary type otherwise |

## Left out

- Client construction and environment configuration (`excalidraw-app/data/supabase.ts:36-61`) are left out, because they are configuration of a foreign client. Only "is a client configured" remains, as `Backend.configured`.
- The backend-selection layer `Desktop/newww/excalidraw-app/data/storage.ts` is left out. It is feature-flag dispatch with exception fallback into a Firebase module that is not part of this model.
- The build script `scripts/build-netlify.js` is left out, because it is pure I/O.
- The internals of `getSceneVersion`, `encryptData`/`decryptData`, `decompressData`, `restoreElements`, `getSyncableElements` and `reconcileElements` are left out. They are imported code, kept as uninterpreted fields of `Library`. No property of reconciliation (idempotence, convergence) or of versions (injectivity) is claimed, because nothing in this file promises them.
- JSON serialisation and `TextEncoder`/`TextDecoder` are folded into `encrypt`/`decrypt`. The text decoding of a loaded file's data URL is not modelled either: `dataURL` holds the decompressed bytes.
- The random IV and `Date.now()` are parameters (`Io.iv`, `now`). A single clock reading is used for both `created` and `lastRetrieved`.
- FileStore.FetchAll: one clock reading `now` serves the whole batch, while each file in `loadFilesFromSupabase` calls `Date.now()` itself (lines 345-346), so files of one batch may get different fallback times.
- A record's `iv` and `ciphertext` are assumed to come back from the table byte for byte as written. The code rebuilds them with `new Uint8Array(...)` (lines 224-225 and 286-287), and the column types are not part of this model. `SceneStore.SaveThenLoad` and `SceneStore.SaveKeepsRecordsConsistent` rely on this.
- The `cacheControl` header of uploads is not modelled, because its constant `FILE_CACHE_MAX_AGE_SEC` is defined in a file that is not part of this model. Upsert is modelled as overwrite.
- The `WeakMap` garbage collection of cache entries is not modelled. The cache is a plain map.
- `Promise.all` concurrency is a sequential fold in input order. For the result lists, completion order is only a permutation, so they are stated as multisets and sets.
- FileStore.UploadAllLastWins: when a batch holds several successful uploads of the same id, the concurrent uploads leave whichever completes last; the model fixes that winner as the last one in input order. For batches with distinct ids (`FileStore.SaveFilesThenDownload`) the result does not depend on completion order.
- Upload failures are given per input position, and download failures per path, because each distinct id is fetched once.
- The select and the write of one save are a single atomic step in the model. Interleaving with other clients' writes between them is not modelled.
- `console` logging is left out.
- SceneStore.Load: `LoadFailed` stands for any exception thrown while decrypting or parsing. The kind of exception is not modelled.

=== FILE: collab.dfy ===
/** Shared vocabulary of the collaboration persistence layer: the opaque scene
    elements, the collaboration portal (socket, room id, room key) and the
    library operations the persistence code calls but does not define.

    The library operations (scene versioning, encryption, restore, the
    syncable filter, reconciliation, decompression) are imported code whose
    internals are not part of this model. They are carried as total function
    values in a `Library` record, so every result in this model is stated for
    ANY implementation of them. Where a property needs decryption to undo
    encryption, that is an explicit hypothesis (`RoundTrip`), never a fact. */
module Collab {

  datatype Option<+T> = None | Some(value: T)

  /** A drawable scene element; its content is opaque to this layer. */
  type Element(==, !new)

  /** The editor state handed through to reconciliation. */
  type AppState

  type Byte = bv8
  type Bytes = seq<Byte>

  /** The room key, a secret string shared among collaborators. */
  type Key = string

  /** Identity of a live collaboration socket (compared by identity in the
      socket.io client; an identifier here). */
  type SocketId = nat

  type FileId = string

  /** Result of decompressing a stored file blob: the payload and the
      metadata stored next to it (absent when the blob carried none). */
  datatype Decompressed = Decompressed(data: Bytes, metadata: Option<FileMetadata>)

  datatype FileMetadata = FileMetadata(mimeType: Option<string>, created: Option<int>)

  /** The imported operations, as total functions.
      - `version`: getSceneVersion.
      - `encrypt(key, iv, elements)`: serialise the elements and encrypt them
        under `key` with initialisation vector `iv`, giving the ciphertext.
      - `decrypt(iv, ciphertext, key)`: decrypt and parse; `None` stands for
        the exception decryptData raises on a wrong key or corrupt payload.
      - `restore(elements, deleteInvisible)`: restoreElements, with the
        `deleteInvisibleElements` option.
      - `syncable`: getSyncableElements.
      - `reconcile(local, remote, appState)`: reconcileElements.
      - `decompress(blob, key)`: decompressData with a decryption key; `None`
        stands for the exception it raises. */
  datatype Library = Library(
    version: seq<Element> -> int,
    encrypt: (Key, Bytes, seq<Element>) -> Bytes,
    decrypt: (Bytes, Bytes, Key) -> Option<seq<Element>>,
    restore: (seq<Element>, bool) -> seq<Element>,
    syncable: seq<Element> -> seq<Element>,
    reconcile: (seq<Element>, seq<Element>, AppState) -> seq<Element>,
    decompress: (Bytes, Key) -> Option<Decompressed>)

  /** Hypothesis: decrypting with the key and IV used to encrypt gives back
      the encrypted elements. Used only as a precondition of the lemmas that
      need it. */
  ghost predicate RoundTrip(lib: Library)
  {
    forall key, iv, elements :: lib.decrypt(iv, lib.encrypt(key, iv, elements), key) == Some(elements)
  }

  /** What the collaboration portal exposes to the persistence layer. Room id
      and key are nullable strings on the portal. */
  datatype Portal = Portal(socket: Option<SocketId>, roomId: Option<string>, roomKey: Option<string>)

  /** JavaScript truthiness of a nullable string: null and "" are both falsy. */
  predicate Truthy(s: Option<string>)
  {
    s.Some? && s.value != ""
  }

  /** The portal is in a room: it has a socket, a room id and a room key. */
  predicate InRoom(portal: Portal)
  {
    portal.socket.Some? && Truthy(portal.roomId) && Truthy(portal.roomKey)
  }
}

=== FILE: file_store.dfy ===
/** The file blob store: batches of already compressed and encrypted file
    buffers uploaded to the `excalidraw-files` bucket under
    `prefix + "/" + id`, and loaded back by id with per-file error
    accounting.

    saveFilesToSupabase and loadFilesFromSupabase fan each batch out
    concurrently and collect results as the requests complete. Here a batch
    is a sequential fold in input order. For the result lists the
    completion order is only a permutation, so they are stated as multisets
    and sets; for the bucket contents it decides which of several uploads
    of the same id is stored last, which the fold fixes as input order. */
module FileStore {
  import opened Collab
  import opened SceneStore

  /** MIME_TYPES.binary, the type given to a file stored without one. */
  const BinaryMimeType: string := "application/octet-stream"

  /** The bucket path of a file. */
  function FilePath(prefix: string, id: FileId): string
  {
    prefix + "/" + id
  }

  /** Within one prefix, distinct ids never share a path. */
  lemma FilePathInjective(prefix: string, a: FileId, b: FileId)
    requires FilePath(prefix, a) == FilePath(prefix, b)
    ensures a == b
  {
    var pa, pb := FilePath(prefix, a), FilePath(prefix, b);
    assert a == pa[|prefix| + 1..];
    assert b == pb[|prefix| + 1..];
  }

  // ---------------------------------------------------------------------------
  // Saving

  datatype FileUpload = FileUpload(id: FileId, buffer: Bytes)

  datatype SaveFilesReport = SaveFilesReport(savedFiles: seq<FileId>, erroredFiles: seq<FileId>)

  /** The bucket after a batch of uploads, and the report of the batch. */
  datatype UploadResult = UploadResult(report: SaveFilesReport, bucket: map<string, Bytes>)

  function Ids(files: seq<FileUpload>): (r: seq<FileId>)
    ensures |r| == |files|
    ensures forall i :: 0 <= i < |files| ==> r[i] == files[i].id
  {
    if |files| == 0 then [] else Ids(files[..|files| - 1]) + [files[|files| - 1].id]
  }

  /** The ids of the files, in input order, whose upload succeeds (`ok`) or
      fails (`!ok`), one entry per file. */
  function IdsWhere(files: seq<FileUpload>, failing: set<nat>, ok: bool): seq<FileId>
  {
    if |files| == 0 then []
    else
      var n := |files| - 1;
      IdsWhere(files[..n], failing, ok) + (if (n !in failing) == ok then [files[n].id] else [])
  }

  /** The positions of `files` whose upload succeeds. */
  ghost function Succeeded(files: seq<FileUpload>, failing: set<nat>): set<nat>
  {
    set i: nat | i < |files| && i !in failing
  }

  /** Uploads `files` in order with upsert, so a successful upload replaces
      whatever the path held. `failing` holds the positions whose upload
      reports an error. Each file's id is reported according to its own
      upload, and the two lists together are as long as the batch; the
      lemmas below state, with multiplicities, which ids each list holds and
      what the bucket becomes. */
  function UploadAll(bucket: map<string, Bytes>, prefix: string, files: seq<FileUpload>, failing: set<nat>): (r: UploadResult)
    decreases |files|
    ensures |r.report.savedFiles| + |r.report.erroredFiles| == |files|
    ensures forall i :: 0 <= i < |files| && i !in failing ==> files[i].id in r.report.savedFiles
    ensures forall i :: 0 <= i < |files| && i in failing ==> files[i].id in r.report.erroredFiles
  {
    if |files| == 0 then
      UploadResult(SaveFilesReport([], []), bucket)
    else
      var n := |files| - 1;
      var done := UploadAll(bucket, prefix, files[..n], failing);
      var file := files[n];
      if n in failing then
        UploadResult(done.report.(erroredFiles := done.report.erroredFiles + [file.id]), done.bucket)
      else
        var path := FilePath(prefix, file.id);
        UploadResult(done.report.(savedFiles := done.report.savedFiles + [file.id]), done.bucket[path := file.buffer])
  }

  /** Every file of the batch is reported exactly once, in the list of its
      own upload's outcome: as multisets, the saved ids are those of the
      successful uploads, the errored ids those of the failed ones, and
      together they are the batch's ids. */
  lemma {:induction false} UploadAllPartition(bucket: map<string, Bytes>, prefix: string, files: seq<FileUpload>, failing: set<nat>)
    decreases |files|
    ensures var r := UploadAll(bucket, prefix, files, failing).report;
            && multiset(r.savedFiles) == multiset(IdsWhere(files, failing, true))
            && multiset(r.erroredFiles) == multiset(IdsWhere(files, failing, false))
            && multiset(r.savedFiles) + multiset(r.erroredFiles) == multiset(Ids(files))
  {
    if |files| > 0 {
      UploadAllPartition(bucket, prefix, files[..|files| - 1], failing);
    }
  }

  /** A reported id comes from a file whose upload had that outcome. */
  lemma {:induction false} UploadAllOrigin(bucket: map<string, Bytes>, prefix: string, files: seq<FileUpload>, failing: set<nat>, id: FileId)
    decreases |files|
    ensures var r := UploadAll(bucket, prefix, files, failing).report;
            && (id in r.savedFiles ==> exists i :: 0 <= i < |files| && i !in failing && files[i].id == id)
            && (id in r.erroredFiles ==> exists i :: 0 <= i < |files| && i in failing && files[i].id == id)
  {
    if |files| > 0 {
      var n := |files| - 1;
      var init := files[..n];
      UploadAllOrigin(bucket, prefix, init, failing, id);
      assert forall i :: 0 <= i < n ==> init[i] == files[i];
    }
  }

  /** The bucket after a batch holds a path exactly when it held it before
      or some successful upload of the batch targets it. */
  lemma {:induction false} UploadAllKeys(bucket: map<string, Bytes>, prefix: string, files: seq<FileUpload>, failing: set<nat>, p: string)
    decreases |files|
    ensures p in UploadAll(bucket, prefix, files, failing).bucket
            <==> p in bucket || exists i :: i in Succeeded(files, failing) && FilePath(prefix, files[i].id) == p
  {
    if |files| > 0 {
      var n := |files| - 1;
      var init := files[..n];
      UploadAllKeys(bucket, prefix, init, failing, p);
      assert forall i :: 0 <= i < n ==> init[i] == files[i];
      assert forall i :: i in Succeeded(init, failing) ==> i in Succeeded(files, failing);
      if n !in failing {
        assert n in Succeeded(files, failing);
      }
    }
  }

  /** A path no successful upload of the batch targets keeps its blob. */
  lemma {:induction false} UploadAllKeepsOthers(bucket: map<string, Bytes>, prefix: string, files: seq<FileUpload>, failing: set<nat>, p: string)
    requires p in bucket
    requires forall i :: i in Succeeded(files, failing) ==> FilePath(prefix, files[i].id) != p
    decreases |files|
    ensures p in UploadAll(bucket, prefix, files, failing).bucket
    ensures UploadAll(bucket, prefix, files, failing).bucket[p] == bucket[p]
  {
    if |files| > 0 {
      var n := |files| - 1;
      var init := files[..n];
      assert forall i :: 0 <= i < n ==> init[i] == files[i];
      assert Succeeded(init, failing) <= Succeeded(files, failing);
      UploadAllKeepsOthers(bucket, prefix, init, failing, p);
    }
  }

  /** A path holds the buffer of the last file, in input order, successfully
      uploaded to it (upsert, applied in the fold's order). */
  lemma {:induction false} UploadAllLastWins(bucket: map<string, Bytes>, prefix: string, files: seq<FileUpload>, failing: set<nat>, i: nat)
    requires i in Succeeded(files, failing)
    requires forall j :: j in Succeeded(files, failing) && i < j ==> files[j].id != files[i].id
    decreases |files|
    ensures FilePath(prefix, files[i].id) in UploadAll(bucket, prefix, files, failing).bucket
    ensures UploadAll(bucket, prefix, files, failing).bucket[FilePath(prefix, files[i].id)] == files[i].buffer
  {
    var n := |files| - 1;
    var init := files[..n];
    if i < n {
      assert forall k :: 0 <= k < n ==> init[k] == files[k];
      assert Succeeded(init, failing) <= Succeeded(files, failing);
      UploadAllLastWins(bucket, prefix, init, failing, i);
      if n !in failing {
        assert n in Succeeded(files, failing);
        if FilePath(prefix, files[n].id) == FilePath(prefix, files[i].id) {
          FilePathInjective(prefix, files[n].id, files[i].id);
        }
      }
    }
  }

  datatype SaveFilesStep = StorageMissing | FilesSaved(report: SaveFilesReport, backend: Backend)

  /** saveFilesToSupabase: throws when storage is not configured; otherwise
      uploads every file and reports which succeeded. Only the files bucket
      changes. */
  function SaveFiles(backend: Backend, prefix: string, files: seq<FileUpload>, failing: set<nat>): (r: SaveFilesStep)
    ensures r.StorageMissing? <==> !backend.configured
    ensures r.FilesSaved? ==>
              && r.backend.configured == backend.configured
              && r.backend.scenes == backend.scenes
              && r.backend.files == UploadAll(backend.files, prefix, files, failing).bucket
              && multiset(r.report.savedFiles) == multiset(IdsWhere(files, failing, true))
              && multiset(r.report.erroredFiles) == multiset(IdsWhere(files, failing, false))
              && multiset(r.report.savedFiles) + multiset(r.report.erroredFiles) == multiset(Ids(files))
              && |r.report.savedFiles| + |r.report.erroredFiles| == |files|
              && (forall i :: 0 <= i < |files| ==>
                    (i !in failing ==> files[i].id in r.report.savedFiles)
                    && (i in failing ==> files[i].id in r.report.erroredFiles))
  {
    if !backend.configured then StorageMissing
    else
      var done := UploadAll(backend.files, prefix, files, failing);
      UploadAllPartition(backend.files, prefix, files, failing);
      FilesSaved(done.report, backend.(files := done.bucket))
  }

  /** With distinct ids, no file is reported both saved and errored. */
  lemma SaveFilesDisjoint(backend: Backend, prefix: string, files: seq<FileUpload>, failing: set<nat>)
    requires forall i, j :: 0 <= i < j < |files| ==> files[i].id != files[j].id
    ensures var r := SaveFiles(backend, prefix, files, failing);
            r.FilesSaved? ==> forall id :: id in r.report.savedFiles ==> id !in r.report.erroredFiles
  {
    var r := SaveFiles(backend, prefix, files, failing);
    if r.FilesSaved? {
      var done := UploadAll(backend.files, prefix, files, failing);
      forall id | id in r.report.savedFiles
        ensures id !in r.report.erroredFiles
      {
        UploadAllOrigin(backend.files, prefix, files, failing, id);
      }
    }
  }

  // ---------------------------------------------------------------------------
  // Loading

  datatype BinaryFileData = BinaryFileData(mimeType: string, id: FileId, dataURL: Bytes, created: int, lastRetrieved: int)

  /** Loaded files, and the ids that could not be loaded (a map to `true` in
      loadFilesFromSupabase). */
  datatype LoadFilesReport = LoadFilesReport(loadedFiles: seq<BinaryFileData>, erroredFiles: set<FileId>)

  predicate Distinct(ids: seq<FileId>)
  {
    forall i, j :: 0 <= i < j < |ids| ==> ids[i] != ids[j]
  }

  /** The ids of a request without repetitions, in order of first occurrence
      (iterating a Set built from them). Each requested id occurs once. */
  function Dedup(ids: seq<FileId>): (r: seq<FileId>)
    ensures forall id :: id in r <==> id in ids
    ensures Distinct(r)
    ensures |r| <= |ids|
  {
    if |ids| == 0 then []
    else
      var n := |ids| - 1;
      var firsts := Dedup(ids[..n]);
      assert ids == ids[..n] + [ids[n]];
      if ids[n] in firsts then firsts else firsts + [ids[n]]
  }

  /** Download of one path; `None` is an error or a missing blob. */
  function Download(bucket: map<string, Bytes>, path: string, failing: set<string>): (r: Option<Bytes>)
    ensures r.Some? <==> path !in failing && path in bucket
    ensures r.Some? ==> r.value == bucket[path]
  {
    if path in failing || path !in bucket then None else Some(bucket[path])
  }

  /** `metadata.mimeType || MIME_TYPES.binary`: absent or empty falls back. */
  function MimeTypeOr(mimeType: Option<string>): (r: string)
    ensures r != ""
    ensures mimeType.Some? && mimeType.value != "" ==> r == mimeType.value
    ensures !Truthy(mimeType) ==> r == BinaryMimeType
  {
    if Truthy(mimeType) then mimeType.value else BinaryMimeType
  }

  /** `metadata.created || Date.now()`: absent or zero falls back to now. */
  function CreatedOr(created: Option<int>, now: int): (r: int)
    ensures created.Some? && created.value != 0 ==> r == created.value
    ensures created.None? || created.value == 0 ==> r == now
  {
    if created.Some? && created.value != 0 then created.value else now
  }

  /** Loads one file: download, decompress and decrypt with the key, read
      the metadata. A download error, a missing blob, a decompression error
      and missing metadata (reading a field of it throws) each make the file
      errored. `now` is the clock reading used for missing creation times. */
  function FetchFile(lib: Library, bucket: map<string, Bytes>, prefix: string, key: Key, id: FileId, failing: set<string>, now: int): (r: Option<BinaryFileData>)
    ensures r.Some? <==>
              && Download(bucket, FilePath(prefix, id), failing).Some?
              && lib.decompress(bucket[FilePath(prefix, id)], key).Some?
              && lib.decompress(bucket[FilePath(prefix, id)], key).value.metadata.Some?
    ensures r.Some? ==>
              && var m := lib.decompress(bucket[FilePath(prefix, id)], key).value.metadata.value;
                 && r.value.id == id
                 && r.value.mimeType != ""
                 && r.value.mimeType == MimeTypeOr(m.mimeType)
                 && r.value.dataURL == lib.decompress(bucket[FilePath(prefix, id)], key).value.data
                 && r.value.created == CreatedOr(m.created, now)
                 && r.value.lastRetrieved == r.value.created
  {
    match Download(bucket, FilePath(prefix, id), failing)
    case None => None
    case Some(blob) =>
      match lib.decompress(blob, key)
      case None => None
      case Some(d) =>
        match d.metadata
        case None => None
        case Some(m) =>
          var created := CreatedOr(m.created, now);
          Some(BinaryFileData(MimeTypeOr(m.mimeType), id, d.data, created, created))
  }

  function FileDataIds(files: seq<BinaryFileData>): (r: seq<FileId>)
    ensures |r| == |files|
    ensures forall i :: 0 <= i < |files| ==> r[i] == files[i].id
  {
    seq(|files|, i requires 0 <= i < |files| => files[i].id)
  }

  /** Fetches every id of a repetition-free request in order. Each id ends
      up in exactly one of the two results, according to its own fetch, and
      the loaded files carry distinct ids. */
  function FetchAll(lib: Library, bucket: map<string, Bytes>, prefix: string, key: Key, ids: seq<FileId>, failing: set<string>, now: int): (r: LoadFilesReport)
    requires Distinct(ids)
    decreases |ids|
    ensures Distinct(FileDataIds(r.loadedFiles))
    ensures forall k :: 0 <= k < |r.loadedFiles| ==>
              r.loadedFiles[k].id in ids
              && FetchFile(lib, bucket, prefix, key, r.loadedFiles[k].id, failing, now) == Some(r.loadedFiles[k])
    ensures forall id :: id in ids && FetchFile(lib, bucket, prefix, key, id, failing, now).Some? ==>
              id in FileDataIds(r.loadedFiles)
    ensures forall id :: id in r.erroredFiles <==>
              id in ids && FetchFile(lib, bucket, prefix, key, id, failing, now).None?
  {
    if |ids| == 0 then LoadFilesReport([], {})
    else
      var n := |ids| - 1;
      var id := ids[n];
      var done := FetchAll(lib, bucket, prefix, key, ids[..n], failing, now);
      assert ids == ids[..n] + [id];
      match FetchFile(lib, bucket, prefix, key, id, failing, now)
      case None => done.(erroredFiles := done.erroredFiles + {id})
      case Some(file) =>
        assert FileDataIds(done.loadedFiles + [file]) == FileDataIds(done.loadedFiles) + [id];
        done.(loadedFiles := done.loadedFiles + [file])
  }

  /** loadFilesFromSupabase: empty results without storage; otherwise the
      requested ids are deduplicated and each distinct id is fetched once.
      Every requested id is in exactly one of the results, errored exactly
      when its own fetch fails, nothing else is, and no id is loaded twice. */
  function LoadFiles(lib: Library, backend: Backend, prefix: string, key: Key, ids: seq<FileId>, failing: set<string>, now: int): (r: LoadFilesReport)
    ensures !backend.configured ==> r == LoadFilesReport([], {})
    ensures backend.configured ==>
              forall id :: id in ids ==> (id in FileDataIds(r.loadedFiles) <==> id !in r.erroredFiles)
    ensures forall id :: id in FileDataIds(r.loadedFiles) ==> id in ids && id !in r.erroredFiles
    ensures forall id :: id in r.erroredFiles ==> id in ids
    ensures backend.configured ==>
              forall id :: id in r.erroredFiles <==>
                id in ids && FetchFile(lib, backend.files, prefix, key, id, failing, now).None?
    ensures Distinct(FileDataIds(r.loadedFiles))
    ensures forall k :: 0 <= k < |r.loadedFiles| ==>
              FetchFile(lib, backend.files, prefix, key, r.loadedFiles[k].id, failing, now) == Some(r.loadedFiles[k])
  {
    if !backend.configured then LoadFilesReport([], {})
    else FetchAll(lib, backend.files, prefix, key, Dedup(ids), failing, now)
  }

  /** A loaded file's type is the stored one when present and non-empty,
      and `MIME_TYPES.binary` otherwise. */
  lemma LoadedMimeType(lib: Library, bucket: map<string, Bytes>, prefix: string, key: Key, id: FileId, failing: set<string>, now: int)
    requires FetchFile(lib, bucket, prefix, key, id, failing, now).Some?
    ensures var m := lib.decompress(bucket[FilePath(prefix, id)], key).value.metadata.value;
            var f := FetchFile(lib, bucket, prefix, key, id, failing, now).value;
            && (Truthy(m.mimeType) ==> f.mimeType == m.mimeType.value)
            && (!Truthy(m.mimeType) ==> f.mimeType == BinaryMimeType)
  {
  }

  /** Upload then download: after a batch whose uploads all succeed, with
      distinct ids, each file's path holds exactly its buffer, so a fault-free
      download of it returns that buffer. */
  lemma SaveFilesThenDownload(backend: Backend, prefix: string, files: seq<FileUpload>)
    requires backend.configured
    requires forall i, j :: 0 <= i < j < |files| ==> files[i].id != files[j].id
    ensures var r := SaveFiles(backend, prefix, files, {});
            && r.FilesSaved?
            && forall i :: 0 <= i < |files| ==>
                 Download(r.backend.files, FilePath(prefix, files[i].id), {}) == Some(files[i].buffer)
  {
    var done := UploadAll(backend.files, prefix, files, {});
    forall i | 0 <= i < |files|
      ensures FilePath(prefix, files[i].id) in done.bucket
      ensures done.bucket[FilePath(prefix, files[i].id)] == files[i].buffer
    {
      assert i in Succeeded(files, {});
      UploadAllLastWins(backend.files, prefix, files, {}, i);
    }
  }
}

=== FILE: scene_store.dfy ===
/** The scene store: one encrypted scene record per room in the
    `excalidraw_scenes` table, saved by read-reconcile-write and loaded by
    select-and-decrypt, with the version cache short-circuiting saves that
    would store nothing new.

    Every operation is a function from the current state and its inputs to
    an outcome and the next state. What the outside world decides (whether
    the client is configured, whether a select or a write fails, which IV
    the encryption draws) is part of the state or an `Io` parameter. */
module SceneStore {
  import opened Collab
  import opened VersionCache

  /** The stored record of a room. */
  datatype StoredScene = StoredScene(sceneVersion: int, iv: Bytes, ciphertext: Bytes)

  /** The backend: whether a client could be built from the configuration,
      the scenes table keyed by room id, and the files bucket keyed by path.
      The room id is the table's key, so a room holds at most one record. */
  datatype Backend = Backend(configured: bool, scenes: map<string, StoredScene>, files: map<string, Bytes>)

  datatype State = State(backend: Backend, cache: Cache)

  /** What one save or load meets outside the process: whether the select
      fails, whether the insert or update fails, and the random IV the
      encryption draws. */
  datatype Io = Io(selectFails: bool, writeFails: bool, iv: Bytes)

  /** The reply of a single-row select: the row, or an error. A select that
      finds no row also reports an error. */
  datatype SelectReply = SelectReply(data: Option<StoredScene>, error: bool)

  function Select(backend: Backend, roomId: string, fails: bool): (r: SelectReply)
    ensures r.data.Some? <==> !fails && roomId in backend.scenes
    ensures r.data.Some? ==> r.data.value == backend.scenes[roomId]
    ensures r.error <==> r.data.None?
  {
    if fails || roomId !in backend.scenes then SelectReply(None, true)
    else SelectReply(Some(backend.scenes[roomId]), false)
  }

  /** Decrypts a record with the room key (decryptElements). */
  function DecryptScene(lib: Library, scene: StoredScene, key: Key): Option<seq<Element>>
  {
    lib.decrypt(scene.iv, scene.ciphertext, key)
  }

  /** A record is consistent under `key` when it decrypts and its version
      field is the version of its plaintext. */
  ghost predicate Consistent(lib: Library, scene: StoredScene, key: Key)
  {
    DecryptScene(lib, scene, key).Some? && scene.sceneVersion == lib.version(DecryptScene(lib, scene, key).value)
  }

  /** Every room whose key is known holds a consistent record. */
  ghost predicate RecordsConsistent(lib: Library, scenes: map<string, StoredScene>, keys: map<string, Key>)
  {
    forall room :: room in scenes && room in keys ==> Consistent(lib, scenes[room], keys[room])
  }

  /** Builds the record for `elements` (createSupabaseSceneDocument): its
      version field is their version and its IV the drawn one. When
      decryption undoes encryption, the record decrypts to exactly
      `elements` and is consistent. */
  function CreateDocument(lib: Library, elements: seq<Element>, key: Key, iv: Bytes): (r: StoredScene)
    ensures r.sceneVersion == lib.version(elements)
    ensures r.iv == iv
    ensures RoundTrip(lib) ==> DecryptScene(lib, r, key) == Some(elements)
    ensures RoundTrip(lib) ==> Consistent(lib, r, key)
  {
    StoredScene(lib.version(elements), iv, lib.encrypt(key, iv, elements))
  }

  /** Insert or update of the room's record; `None` is a write error. An
      insert for a room that already has a record violates the key; an
      update matching no row succeeds and changes nothing. */
  function Write(backend: Backend, roomId: string, doc: StoredScene, insert: bool, fails: bool): (r: Option<Backend>)
    ensures r.Some? <==> !fails && !(insert && roomId in backend.scenes)
    ensures r.Some? && (insert || roomId in backend.scenes) ==>
              r.value == backend.(scenes := backend.scenes[roomId := doc])
    ensures r.Some? && !insert && roomId !in backend.scenes ==> r.value == backend
  {
    if fails || (insert && roomId in backend.scenes) then None
    else if !insert && roomId !in backend.scenes then Some(backend)
    else Some(backend.(scenes := backend.scenes[roomId := doc]))
  }

  /** The elements a save encrypts, given what the select returned: the
      local elements when there is no record; otherwise the syncable part of
      reconciling the local elements against the syncable restored stored
      ones. `None` when the stored record does not decrypt. */
  function Candidate(lib: Library, existing: Option<StoredScene>, elements: seq<Element>, key: Key, appState: AppState): Option<seq<Element>>
  {
    match existing
    case None => Some(elements)
    case Some(prev) =>
      match DecryptScene(lib, prev, key)
      case None => None
      case Some(plain) =>
        var prevElements := lib.syncable(lib.restore(plain, false));
        Some(lib.syncable(lib.reconcile(elements, prevElements, appState)))
  }

  datatype SaveError = ClientMissing | WriteFailed | DecryptFailed

  datatype SaveOutcome =
    | NothingToSave                  // saveToSupabase returns null
    | Saved(elements: seq<Element>)  // decrypted from the document just written
    | SaveFailed(error: SaveError)   // saveToSupabase throws

  datatype SaveStep = SaveStep(outcome: SaveOutcome, state: State)

  /** After a successful write of `doc`: decrypt it back, restore it, keep
      the syncable elements, and record their version for the socket. */
  function FinishSave(lib: Library, s: State, socket: SocketId, doc: StoredScene, key: Key): (r: SaveStep)
    ensures r.state.backend == s.backend
    ensures r.outcome.Saved? || r.outcome == SaveFailed(DecryptFailed)
    ensures r.outcome.Saved? <==> DecryptScene(lib, doc, key).Some?
    ensures r.outcome.Saved? ==>
              && r.outcome.elements == lib.syncable(lib.restore(DecryptScene(lib, doc, key).value, false))
              && r.state.cache == Set(lib, s.cache, socket, r.outcome.elements)
    ensures r.outcome.SaveFailed? ==> r.state.cache == s.cache
  {
    match DecryptScene(lib, doc, key)
    case None => SaveStep(SaveFailed(DecryptFailed), s)
    case Some(plain) =>
      var stored := lib.syncable(lib.restore(plain, false));
      SaveStep(Saved(stored), s.(cache := Set(lib, s.cache, socket, stored)))
  }

  /** saveToSupabase. Outside a room, or when the scene is already saved,
      nothing happens. Otherwise the room's record is selected (its error is
      ignored, so a failed select is treated as "no record"), the elements to
      store are computed, encrypted with the room key, inserted or updated;
      the document just written is decrypted again (not fetched), and the
      version of its syncable restored elements recorded for the socket. */
  function Save(lib: Library, s: State, portal: Portal, elements: seq<Element>, appState: AppState, io: Io): (r: SaveStep)
    ensures r.outcome.NothingToSave? <==> IsSaved(lib, s.cache, portal, elements)
    ensures r.outcome.NothingToSave? ==> r.state == s
    ensures r.state.backend.configured == s.backend.configured
    ensures r.state.backend.files == s.backend.files
    // only the portal's room can change, and only its socket's cache entry
    ensures r.state != s ==> InRoom(portal)
    ensures InRoom(portal) ==>
              && r.state.backend.scenes - {portal.roomId.value} == s.backend.scenes - {portal.roomId.value}
              && forall other :: other != portal.socket.value ==> Get(r.state.cache, other) == Get(s.cache, other)
    // without a client the call fails before touching anything
    ensures !s.backend.configured && !IsSaved(lib, s.cache, portal, elements) ==>
              r == SaveStep(SaveFailed(ClientMissing), s)
    // a failure never touches the cache, and changes the backend only when
    // the record it just wrote cannot be decrypted back
    ensures r.outcome.SaveFailed? ==> r.state.cache == s.cache
    ensures r.outcome.SaveFailed? && r.state.backend != s.backend ==> r.outcome.error == DecryptFailed
    ensures r.outcome.SaveFailed? && r.state.backend != s.backend ==>
              && InRoom(portal)
              && portal.roomId.value in r.state.backend.scenes
              && DecryptScene(lib, r.state.backend.scenes[portal.roomId.value], portal.roomKey.value).None?
    // a success returns the syncable restored plaintext of the record it wrote
    ensures r.outcome.Saved? ==>
              && portal.roomId.value in r.state.backend.scenes
              && DecryptScene(lib, r.state.backend.scenes[portal.roomId.value], portal.roomKey.value).Some?
              && r.outcome.elements == lib.syncable(lib.restore(
                   DecryptScene(lib, r.state.backend.scenes[portal.roomId.value], portal.roomKey.value).value, false))
    // a success leaves the version of what it returns in the cache
    ensures r.outcome.Saved? ==>
              InRoom(portal) && r.state.cache == Set(lib, s.cache, portal.socket.value, r.outcome.elements)
  {
    if !InRoom(portal) || IsSaved(lib, s.cache, portal, elements) then
      SaveStep(NothingToSave, s)
    else if !s.backend.configured then
      SaveStep(SaveFailed(ClientMissing), s)
    else
      var roomId, key, socket := portal.roomId.value, portal.roomKey.value, portal.socket.value;
      var existing := Select(s.backend, roomId, io.selectFails).data;
      match Candidate(lib, existing, elements, key, appState)
      case None => SaveStep(SaveFailed(DecryptFailed), s)
      case Some(toStore) =>
        var doc := CreateDocument(lib, toStore, key, io.iv);
        match Write(s.backend, roomId, doc, existing.None?, io.writeFails)
        case None => SaveStep(SaveFailed(WriteFailed), s)
        case Some(backend) => FinishSave(lib, s.(backend := backend), socket, doc, key)
  }

  /** The preconditions under which a save reaches the backend. */
  predicate SaveProceeds(lib: Library, s: State, portal: Portal, elements: seq<Element>)
  {
    InRoom(portal) && !IsSaved(lib, s.cache, portal, elements) && s.backend.configured
  }

  /** First save of a room: exactly one record is inserted, for the portal's
      room, carrying the version of the local elements and their encryption
      under the room key; nothing else in the table changes. */
  lemma SaveInsertsRecord(lib: Library, s: State, portal: Portal, elements: seq<Element>, appState: AppState, io: Io)
    requires SaveProceeds(lib, s, portal, elements)
    requires portal.roomId.value !in s.backend.scenes
    requires !io.writeFails
    ensures var r := Save(lib, s, portal, elements, appState, io);
            var roomId := portal.roomId.value;
            && r.state.backend.scenes.Keys == s.backend.scenes.Keys + {roomId}
            && r.state.backend.scenes - {roomId} == s.backend.scenes - {roomId}
            && r.state.backend.scenes[roomId].sceneVersion == lib.version(elements)
            && r.state.backend.scenes[roomId].ciphertext == lib.encrypt(portal.roomKey.value, io.iv, elements)
            && r.state.backend.scenes[roomId].iv == io.iv
    ensures RoundTrip(lib) ==>
              Save(lib, s, portal, elements, appState, io).outcome == Saved(lib.syncable(lib.restore(elements, false)))
  {
  }

  /** The select's error is ignored: when it fails for a room that already
      has a record, the save takes the insert branch, the insert is rejected
      by the key, and the call fails with nothing changed. */
  lemma SaveAfterFailedSelect(lib: Library, s: State, portal: Portal, elements: seq<Element>, appState: AppState, io: Io)
    requires SaveProceeds(lib, s, portal, elements)
    requires io.selectFails
    requires portal.roomId.value in s.backend.scenes
    ensures Save(lib, s, portal, elements, appState, io) == SaveStep(SaveFailed(WriteFailed), s)
  {
  }

  /** Later saves of a room: the record written to the same room id is built
      from the syncable part of reconciling the local elements against the
      syncable restored plaintext of the previous record, its version is
      the version of that merged set, and it carries the drawn IV. When decryption
      undoes encryption, the save returns that merged set, restored and
      filtered. */
  lemma SaveUpdatesRecord(lib: Library, s: State, portal: Portal, elements: seq<Element>, appState: AppState, io: Io)
    requires SaveProceeds(lib, s, portal, elements)
    requires !io.selectFails && !io.writeFails
    requires portal.roomId.value in s.backend.scenes
    requires DecryptScene(lib, s.backend.scenes[portal.roomId.value], portal.roomKey.value).Some?
    ensures var r := Save(lib, s, portal, elements, appState, io);
            var roomId, key := portal.roomId.value, portal.roomKey.value;
            var prev := DecryptScene(lib, s.backend.scenes[roomId], key).value;
            var merged := lib.syncable(lib.reconcile(elements, lib.syncable(lib.restore(prev, false)), appState));
            && r.state.backend.scenes.Keys == s.backend.scenes.Keys
            && r.state.backend.scenes - {roomId} == s.backend.scenes - {roomId}
            && r.state.backend.scenes[roomId].sceneVersion == lib.version(merged)
            && r.state.backend.scenes[roomId].ciphertext == lib.encrypt(key, io.iv, merged)
            && r.state.backend.scenes[roomId].iv == io.iv
    ensures RoundTrip(lib) ==>
              var prev := DecryptScene(lib, s.backend.scenes[portal.roomId.value], portal.roomKey.value).value;
              var merged := lib.syncable(lib.reconcile(elements, lib.syncable(lib.restore(prev, false)), appState));
              Save(lib, s, portal, elements, appState, io).outcome == Saved(lib.syncable(lib.restore(merged, false)))
  {
  }

  /** A save whose previous record does not decrypt fails before writing. */
  lemma SaveUndecryptablePrevious(lib: Library, s: State, portal: Portal, elements: seq<Element>, appState: AppState, io: Io)
    requires SaveProceeds(lib, s, portal, elements)
    requires !io.selectFails
    requires portal.roomId.value in s.backend.scenes
    requires DecryptScene(lib, s.backend.scenes[portal.roomId.value], portal.roomKey.value).None?
    ensures Save(lib, s, portal, elements, appState, io) == SaveStep(SaveFailed(DecryptFailed), s)
  {
  }

  /** A failing write leaves both the backend and the cache as they were,
      whatever else happens, so the next save retries the whole sequence. */
  lemma SaveWriteFailure(lib: Library, s: State, portal: Portal, elements: seq<Element>, appState: AppState, io: Io)
    requires io.writeFails
    ensures var r := Save(lib, s, portal, elements, appState, io);
            r.state == s && !r.outcome.Saved?
  {
  }

  /** After a successful save the scene counts as saved for the returned
      elements, and for any other element set exactly when its version is
      theirs. */
  lemma SaveThenIsSaved(lib: Library, s: State, portal: Portal, elements: seq<Element>, appState: AppState, io: Io, later: seq<Element>)
    requires Save(lib, s, portal, elements, appState, io).outcome.Saved?
    ensures var r := Save(lib, s, portal, elements, appState, io);
            && IsSaved(lib, r.state.cache, portal, r.outcome.elements)
            && (IsSaved(lib, r.state.cache, portal, later) <==> lib.version(later) == lib.version(r.outcome.elements))
  {

  }

  /** When decryption undoes encryption, saving with a room's key keeps every
      record consistent with its version field. */
  lemma SaveKeepsRecordsConsistent(lib: Library, s: State, portal: Portal, elements: seq<Element>, appState: AppState, io: Io, keys: map<string, Key>)
    requires RoundTrip(lib)
    requires RecordsConsistent(lib, s.backend.scenes, keys)
    requires InRoom(portal) && portal.roomId.value in keys ==> keys[portal.roomId.value] == portal.roomKey.value
    ensures RecordsConsistent(lib, Save(lib, s, portal, elements, appState, io).state.backend.scenes, keys)
  {

  }

  datatype LoadOutcome =
    | NoScene                        // loadFromSupabase returns null
    | Loaded(elements: seq<Element>)
    | LoadFailed                     // decryption throws

  datatype LoadStep = LoadStep(outcome: LoadOutcome, cache: Cache)

  /** loadFromSupabase. Without a client, or when the select fails or finds
      nothing, the result is null. Otherwise the record is decrypted, restored
      with invisible elements deleted, filtered to the syncable ones, and its
      version recorded when a socket is given. */
  function Load(lib: Library, backend: Backend, cache: Cache, roomId: string, roomKey: Key, socket: Option<SocketId>, selectFails: bool): (r: LoadStep)
    ensures !backend.configured || selectFails || roomId !in backend.scenes ==> r == LoadStep(NoScene, cache)
    ensures r.outcome.Loaded? <==>
              && backend.configured && !selectFails && roomId in backend.scenes
              && DecryptScene(lib, backend.scenes[roomId], roomKey).Some?
    ensures r.outcome.Loaded? ==>
              r.outcome.elements == lib.syncable(lib.restore(DecryptScene(lib, backend.scenes[roomId], roomKey).value, true))
    ensures r.outcome.LoadFailed? <==>
              backend.configured && !selectFails && roomId in backend.scenes
              && DecryptScene(lib, backend.scenes[roomId], roomKey).None?
    ensures !r.outcome.Loaded? ==> r.cache == cache
    ensures r.outcome.Loaded? && socket.None? ==> r.cache == cache
    ensures r.outcome.Loaded? && socket.Some? ==> r.cache == Set(lib, cache, socket.value, r.outcome.elements)
  {
    if !backend.configured then LoadStep(NoScene, cache)
    else
      var reply := Select(backend, roomId, selectFails);
      if reply.error || reply.data.None? then LoadStep(NoScene, cache)
      else
        match DecryptScene(lib, reply.data.value, roomKey)
        case None => LoadStep(LoadFailed, cache)
        case Some(plain) =>
          var elements := lib.syncable(lib.restore(plain, true));
          LoadStep(Loaded(elements), if socket.Some? then Set(lib, cache, socket.value, elements) else cache)
  }

  /** Save then load: after a successful save, a load of the same room with
      the same key reads the record just written, whose version is the
      version of its plaintext; it returns that plaintext restored with
      invisible elements deleted, while the save returned it restored without
      deletion. */
  lemma SaveThenLoad(lib: Library, s: State, portal: Portal, elements: seq<Element>, appState: AppState, io: Io)
    requires RoundTrip(lib)
    requires Save(lib, s, portal, elements, appState, io).outcome.Saved?
    ensures var r := Save(lib, s, portal, elements, appState, io);
            var roomId, key := portal.roomId.value, portal.roomKey.value;
            var loaded := Load(lib, r.state.backend, r.state.cache, roomId, key, portal.socket, false);
            && roomId in r.state.backend.scenes
            && Consistent(lib, r.state.backend.scenes[roomId], key)
            && var plain := DecryptScene(lib, r.state.backend.scenes[roomId], key).value;
               && r.outcome.elements == lib.syncable(lib.restore(plain, false))
               && loaded.outcome == Loaded(lib.syncable(lib.restore(plain, true)))
  {

  }

  /** A load given a socket leaves the scene counted as saved, for a portal
      on that socket, for exactly the element sets with the loaded version. */
  lemma LoadThenIsSaved(lib: Library, backend: Backend, cache: Cache, portal: Portal, selectFails: bool, later: seq<Element>)
    requires InRoom(portal)
    requires Load(lib, backend, cache, portal.roomId.value, portal.roomKey.value, portal.socket, selectFails).outcome.Loaded?
    ensures var r := Load(lib, backend, cache, portal.roomId.value, portal.roomKey.value, portal.socket, selectFails);
            && IsSaved(lib, r.cache, portal, r.outcome.elements)
            && (IsSaved(lib, r.cache, portal, later) <==> lib.version(later) == lib.version(r.outcome.elements))
  {

  }
}

=== FILE: version_cache.dfy ===
/** The per-socket scene version cache and the "already saved" decision.
    saveToSupabase and loadFromSupabase keep the cache in a process-wide weak map keyed by socket
    objects; here it is a plain map from socket identity to the last scene
    version known to be stored. */
module VersionCache {
  import opened Collab

  type Cache = map<SocketId, int>

  /** Cache lookup; `None` plays the part of `undefined`. */
  function Get(cache: Cache, socket: SocketId): (r: Option<int>)
    ensures r.Some? <==> socket in cache
    ensures r.Some? ==> r.value == cache[socket]
  {
    if socket in cache then Some(cache[socket]) else None
  }

  /** Records the version of `elements` for `socket`; other sockets keep
      their entries. */
  function Set(lib: Library, cache: Cache, socket: SocketId, elements: seq<Element>): (r: Cache)
    ensures r.Keys == cache.Keys + {socket}
    ensures Get(r, socket) == Some(lib.version(elements))
    ensures forall other :: other != socket ==> Get(r, other) == Get(cache, other)
  {
    cache[socket := lib.version(elements)]
  }

  /** Whether the scene is already stored. Outside a room there is nothing to
      compare against, so the answer is "saved" (so that unloading is never
      blocked); in a room it is saved exactly when the cached version for the
      socket equals the version of `elements`. A missing entry never equals a
      version. */
  function IsSaved(lib: Library, cache: Cache, portal: Portal, elements: seq<Element>): (r: bool)
    ensures !InRoom(portal) ==> r
    ensures InRoom(portal) ==>
              (r <==> (portal.socket.value in cache && cache[portal.socket.value] == lib.version(elements)))
  {
    if InRoom(portal) then
      Get(cache, portal.socket.value) == Some(lib.version(elements))
    else
      true
  }

  /** Right after recording `stored` for the portal's socket, the scene is
      saved for exactly those element sets whose version equals that of
      `stored`, and the answer for any other socket is what it was. */
  lemma SetThenIsSaved(lib: Library, cache: Cache, portal: Portal, stored: seq<Element>, elements: seq<Element>)
    requires InRoom(portal)
    ensures IsSaved(lib, Set(lib, cache, portal.socket.value, stored), portal, stored)
    ensures IsSaved(lib, Set(lib, cache, portal.socket.value, stored), portal, elements)
            <==> lib.version(elements) == lib.version(stored)
    ensures forall other: Portal :: other.socket != portal.socket ==>
              IsSaved(lib, Set(lib, cache, portal.socket.value, stored), other, elements)
                == IsSaved(lib, cache, other, elements)
  {

  }
}
